=== FILE: README.md ===
# animesuggest in Dafny

A model of the suggestion engine of animesuggest. Given a user name, the
engine checks the name and loads the user's anime list page by page through
a key-value cache. It takes the user's best completed title as the seed and
scrapes the seed's recommendation page, again through the cache. It drops
every recommended title the user is watching, has completed or has dropped,
and every title already kept. Each remaining recommender gets an affinity:
the Pearson correlation of the two users' ratings over the titles both
rated, times 100. The kept recommendations are returned best affinity first,
in a stable order.

The model has five modules:

- `Common`: `Option`, `Result`, the failures a request can end with, and the
  concatenation of pages.
- `Sorting`: the stable descending sort that `list.sort(key=..., reverse=True)`
  performs. It is specified by an insertion sort. Its order, stability,
  permutation and distinctness properties are proved.
- `AnimeLists`: list items, `AnimeStatus` and the `AnimeList` class. The
  constructor's nested loops are proved to compute the excluded urls, the
  completed items (stable sort by score) and the ratings. These are
  reference functions of the flattened pages.
- `Fetching`: the `AnimeListFetcher` class. It has a mutable `cache` map for
  the key-value store and a ghost log of the requests sent to the site. The
  site and the page parser are function-valued constants. Pagination is
  specified by `FetchedPages`, the pages a complete run collects. The cache
  is specified by views: what a lookup yields against a given cache. The
  fetcher only ever adds entries that agree with the site, so the views never
  change during a request.
- `Suggestions`: the username check, the alignment of two rating maps, the
  affinity, and the `SuggestAnime` class.
  - The aggregation loop is proved against `Accept`, a reference definition
    of "keep each url's first occurrence unless excluded".
  - Every kept affinity is proved to be one that correlating the
    recommender's ratings can give.
  - The result is proved to be the stable sort of the kept suggestions.

Behaviours of main.py worth noting:

- Nothing in `process_recommendations` catches an exception. A
  recommendation page without its marker node, or a correlation that
  raises, ends the whole request with an error (`MarkerNotFound`,
  `CorrelationFailed`). When every seed's page parses and no kept
  recommender's correlation raises, the request succeeds.
- The recommendation cache key is `"userrec:" + url`.
- A recommender sharing fewer than two rated titles gets no special case.
  Its score is whatever the correlation routine gives for such inputs,
  including raising.
- The username pattern is `^[\w-]*$` under `re.match`.
  - `\w` is the regex engine's word class, given to the model as a parameter.
  - `$` also matches before one final newline, so `"name\n"` is accepted
    (`TrailingNewlineAccepted`).

## Model

| member | source | states |
|---|---|---|
| Sorting.SortDesc | main.py:60-62 | the sorted sequence is a permutation of the input |
| Sorting.SortDescSorted | main.py:60-62 | the sort's result never increases in key from left to right |
| Sorting.SortDescStable | main.py:60-62 | for every key, the elements carrying it keep their input order (stability of `list.sort` with `reverse=True`) |
| Sorting.SortDescHead | main.py:71-72 | the first element of the sorted result is the earliest element with the largest key |
| Sorting.SortDescKeepsDistinct | main.py:200-202 | when no two input elements share a url (or any other attribute), no two elements of the sorted result do |
| Sorting.SortDescMembers | main.py:200-202 | an element is in the sorted result exactly when it is in the input |
| AnimeLists.IsExcludedStatuses | main.py:64-68 | an item is excluded exactly when its status is WATCHING, COMPLETED or DROPPED; ON_HOLD, PLAN_TO_WATCH and ALL are not |
| AnimeLists.ExcludedOfMembers | main.py:50-53 | a url is in the excluded set exactly when some item with that url has an excluding status |
| AnimeLists.CompletedOfCounts | main.py:54-55 | the completed list holds each COMPLETED item as often as it occurs on the pages, and no other item |
| AnimeLists.RatedOfKeys | main.py:56-59 | a url is rated exactly when some item with that url has a non-zero score, and no stored rating is 0 |
| AnimeLists.RatedOfLastWins | main.py:56-59 | the stored rating of a url is the score of its last rated occurrence |
| AnimeLists.AnimeList.constructor | main.py:44-62 | the loops over all pages leave the excluded urls, the completed items sorted by score and the ratings equal to the reference functions of the flattened pages |
| AnimeLists.AnimeList.SeedAnimeUrls | main.py:70-73 | the seeds are the urls of the first min(1, number completed) entries of the completed list, in order |
| AnimeLists.CompletedSortedStable | main.py:60-62 | the completed list is a permutation of the completed items, with scores not increasing, and equal scores keep encounter order |
| AnimeLists.SeedIsBestCompleted | main.py:70-73 | there is no seed exactly when nothing was completed; otherwise the seed is the url of the earliest completed item with the highest score |
| Fetching.KeysDecode | main.py:87-119 | the list key `"al:"+user` (line 88) and the recommendation key `"userrec:"+url` (line 119) never collide and give back the user or url they were built from |
| Fetching.FetchedPagesShape | main.py:97-115 | the collected pages are the delivered pages in page order; every page but the last holds exactly 300 items; when no page was collected or the last one is full, the next request failed, so a failed page ends the run and what came before it is kept |
| Fetching.ListViewStable | main.py:87-95 | adding cache entries that agree with the site never changes the pages a list lookup yields |
| Fetching.ListCacheRoundTrip | main.py:90-95 | after the pages fetched on a miss are cached, looking the user up again is a cache hit that yields the same pages and ratings |
| Fetching.RecommendationsViewStable | main.py:117-131 | adding cache entries that agree with the site never changes what a recommendation lookup yields |
| Fetching.AnimeListFetcher.RequestListPage | main.py:101-103 | the response is the site's page at that offset, and the request is logged |
| Fetching.AnimeListFetcher.RequestRecommendationPage | main.py:118-123 | the response is the site's recommendation page of that url, and the request is logged |
| Fetching.AnimeListFetcher.AnimeListFor | main.py:87-95 | on a hit, the list is built from the cached pages with no request and no write; on a miss, the pages are fetched, cached even when partial, and the list is built from them |
| Fetching.AnimeListFetcher.FetchAnimes | main.py:97-115 | the result is exactly the pages a complete pagination run collects, and the requests are offsets 0, 300, ... up to the first stopping page |
| Fetching.AnimeListFetcher.Recommendations | main.py:117-131 | a cached body is parsed with no request; on a miss the page is requested once, cached and parsed only on status 200, and any other status gives no recommendations and no write; a missing marker is an error |
| Suggestions.ValidateUsername | main.py:173-179 | a name is accepted exactly when it is non-empty, at most 32 characters, and matches `^[\w-]*$`; otherwise it is rejected as empty, as too long, or as holding an invalid character, checked in that order |
| Suggestions.AcceptedUsernameCharacters | main.py:176-179 | every character of an accepted name but the last is a word character or `-`; the last is one too, or is a newline |
| Suggestions.TrailingNewlineAccepted | main.py:178-179 | a valid name of at most 31 characters followed by a newline is accepted |
| Suggestions.AcceptSound | main.py:187-198 | no kept recommendation has an excluded url, no two kept share a url, and each kept one was scraped |
| Suggestions.AcceptComplete | main.py:187-198 | the first recommendation of every non-excluded url is kept, so the kept urls are the scraped urls minus the excluded ones |
| Suggestions.AcceptSkip | main.py:189-191 | a recommendation whose url is excluded or already kept leaves the kept list unchanged |
| Suggestions.AcceptKeep | main.py:191-198 | any other recommendation is appended to the kept list |
| Suggestions.AcceptMonotone | main.py:185-198 | what is kept from a prefix of the recommendations is a prefix of what is kept from all of them |
| Suggestions.AlignRatings | main.py:208-215 | the two score sequences hold, position by position, both users' ratings of each url both rated, each url once, in some order |
| Suggestions.AlignmentSize | main.py:208-215 | every alignment has as many entries as the two users have rated urls in common |
| Suggestions.Affinity | main.py:217-221 | NaN gives 0, a coefficient c gives 100·c, and an exception from the correlation ends the request |
| Suggestions.AffinityMonotone | main.py:217-221 | affinity keeps the order of coefficients, NaN scores like a zero coefficient, and a coefficient in [-1, 1] gives an affinity in [-100, 100] |
| Suggestions.RankedSuggestions | main.py:181-203 | the ranked result is sorted by affinity, best first, has no url twice, has no url the user already tracks, and holds only scraped recommendations |
| Suggestions.SuggestAnime.constructor | main.py:157-158 | the engine keeps the fetcher it was given |
| Suggestions.SuggestAnime.ComputeRecommendationScore | main.py:205-221 | the score is the affinity of the correlation of both users' ratings along an alignment of their common urls, with the recommender's ratings as a lookup against the cache yields them |
| Suggestions.SuggestAnime.ConsiderRecommendation | main.py:188-198 | one recommendation is skipped when its url is excluded or already kept; otherwise it is scored and kept, with an affinity its recommender's ratings can give; a failure happens only when that recommender's correlation raises |
| Suggestions.SuggestAnime.AddRecommendations | main.py:187-198 | walking one seed's recommendations keeps exactly `Accept` of all recommendations seen so far, each with an affinity its recommender's ratings can give; a failure happens only when some kept recommender's correlation raises |
| Suggestions.SuggestAnime.ProcessRecommendations | main.py:181-203 | on success, every seed parsed, the kept suggestions are `Accept` of all seeds' recommendations in seed and page order, every affinity is one the recommender's ratings give, and the result is their stable sort by affinity, best first; a missing marker is reported at the first seed whose page does not parse; a correlation failure is reported at a seed such that every page up to it parses and scoring some recommender kept from those pages raises; when every seed parses and no kept recommender's correlation raises, the result is a success |
| Suggestions.SuggestAnime.ProcessSeed | main.py:185-198 | one seed's page is looked up and its recommendations walked; on success the kept list grows to `Accept` of all recommendations seen so far, each with an affinity its recommender's ratings can give; a missing marker means this is the first seed whose page does not parse, and a correlation failure means scoring a recommender kept from the seeds so far raises |
| Suggestions.SuggestAnime.Suggest | main.py:162-171 | a rejected name fails with its reason and touches neither the cache nor the site; for an accepted name, a success is the stable best-first sort of the scored recommendations kept from the seeds of the user's own list, in seed and page order; it succeeds whenever those seeds parse and no correlation raises; it fails only with a missing marker at the first seed whose page does not parse, or with a correlation failure at a seed up to which every page parses and some kept recommender's correlation raises; the result never repeats a url nor holds one the user watches, completed or dropped |

## Left out

- HTTP is a function from request to response (`Web`), standing for the response that remains after `wrapped_request`'s retries (main.py:78-85). The retry policy is not part of this model.
- Exceptions of the HTTP transport are not modelled. When a 502, 503 or 504 persists past the retries, `requests` raises a retry error, and a failed connection raises too. Nothing in main.py catches either, so the whole request ends with nothing cached. The model instead treats every such outcome as a non-200 response: pagination stops and keeps the earlier pages, and a recommendation page gives no recommendations.
- The `time.sleep` pauses and the `print` on a failed list page are not modelled; they have no effect on results.
- The site must eventually end every user's list with a short or failed page (`Paginates`). The source loops forever on a site that serves full pages without end, and the model does not capture that case.
- The cache is one `map` owned by the fetcher. Other processes sharing the store are not modelled, nor are its failures.
- JSON encoding of cached list pages is taken as the identity: the pages are stored as values.
- The HTML parsing of recommendation pages (`parse_recommendation_html`, `extract_node_info`, main.py:133-153) is a parameter. It yields the scraped recommendations, or nothing when the page cannot be parsed. Every parse failure is reported as `MarkerNotFound`.
- The stripping of the site prefix from scraped urls (main.py:148-151) is part of that parameter.
- `scipy.stats.pearsonr` is a parameter giving a coefficient, NaN or an exception. Floating point is modelled as `real`.
- Suggestions.AlignRatings: the set iteration order of the intersection (main.py:213) is chosen nondeterministically. The affinity contracts therefore say "along some alignment of the common urls" rather than naming one order.
- The regex word class `\w` is a parameter of the username check; Unicode tables are not modelled.
- The CherryPy web server, the JSON response wrapper `{"recommendations": ...}` and the module-level objects (main.py:160-161, 169-171, 224-227) are not modelled.
- The item title carried by list items and the output field names are not modelled.

=== FILE: anime_list.dfy ===
/** A user's list as the list pages deliver it, and the derived view the
    suggestion pipeline works from: the urls it must not suggest again, the
    completed titles best first, and the user's ratings by url. */
module AnimeLists {
  import opened Common
  import opened Sorting

  /** The list statuses and the integers the list pages use for them. */
  datatype AnimeStatus = Watching | Completed | OnHold | Dropped | PlanToWatch | All
  {
    function Value(): int
    {
      match this
      case Watching => 1
      case Completed => 2
      case OnHold => 3
      case Dropped => 4
      case PlanToWatch => 6
      case All => 7
    }
  }

  /** How many of the best completed titles seed the suggestions. */
  const DefaultSeedAnimeNumber: nat := 1
  /** The score of an item the user has not rated. */
  const UnratedScore: int := 0

  /** One record of a list page; `status` is the raw integer of the page. */
  datatype Item = Item(url: string, status: int, score: int)

  function ScoreKey(anime: Item): real
  {
    anime.score as real
  }

  /** An item the user is watching, has completed or has dropped. */
  predicate IsExcluded(anime: Item)
  {
    anime.status == Watching.Value()
    || anime.status == Completed.Value()
    || anime.status == Dropped.Value()
  }

  /** Exactly the statuses Watching, Completed and Dropped exclude an item. */
  lemma IsExcludedStatuses(url: string, status: AnimeStatus, score: int)
    ensures IsExcluded(Item(url, status.Value(), score))
            <==> status in {Watching, Completed, Dropped}
  {
  }

  /** The urls of the excluded items among `animes`. */
  function ExcludedOf(animes: seq<Item>): set<string>
  {
    if animes == [] then {}
    else
      var last := animes[|animes| - 1];
      ExcludedOf(animes[..|animes| - 1]) + (if IsExcluded(last) then {last.url} else {})
  }

  /** The completed items of `animes`, in encounter order. */
  function CompletedOf(animes: seq<Item>): seq<Item>
  {
    if animes == [] then []
    else
      var last := animes[|animes| - 1];
      CompletedOf(animes[..|animes| - 1]) + (if last.status == Completed.Value() then [last] else [])
  }

  /** The ratings of `animes` by url; a later rating of a url replaces an
      earlier one and unrated items are skipped. */
  function RatedOf(animes: seq<Item>): map<string, int>
  {
    if animes == [] then map[]
    else
      var last := animes[|animes| - 1];
      var before := RatedOf(animes[..|animes| - 1]);
      if last.score != UnratedScore then before[last.url := last.score] else before
  }

  /** A url is excluded exactly when some item with that url has an
      excluding status; an item that is only on hold or planned adds nothing. */
  lemma {:induction false} ExcludedOfMembers(animes: seq<Item>, url: string)
    ensures url in ExcludedOf(animes)
            <==> exists i :: 0 <= i < |animes| && animes[i].url == url && IsExcluded(animes[i])
  {
    if animes != [] {
      var init := animes[..|animes| - 1];
      ExcludedOfMembers(init, url);
      if exists i :: 0 <= i < |init| && init[i].url == url && IsExcluded(init[i]) {
        var i :| 0 <= i < |init| && init[i].url == url && IsExcluded(init[i]);
        assert animes[i] == init[i];
      }
      if exists i :: 0 <= i < |animes| && animes[i].url == url && IsExcluded(animes[i]) {
        var i :| 0 <= i < |animes| && animes[i].url == url && IsExcluded(animes[i]);
        if i < |init| { assert init[i] == animes[i]; }
      }
    }
  }

  /** The completed list holds every completed item as many times as it
      occurs, and nothing else. */
  lemma {:induction false} CompletedOfCounts(animes: seq<Item>, x: Item)
    ensures multiset(CompletedOf(animes))[x]
            == if x.status == Completed.Value() then multiset(animes)[x] else 0
  {
    if animes != [] {
      var init := animes[..|animes| - 1];
      CompletedOfCounts(init, x);
      assert animes == init + [animes[|animes| - 1]];
    }
  }

  /** The rated urls are exactly the urls of items with a non-zero score,
      whatever their status, and no stored rating is zero. */
  lemma {:induction false} RatedOfKeys(animes: seq<Item>, url: string)
    ensures url in RatedOf(animes)
            <==> exists i :: 0 <= i < |animes| && animes[i].url == url && animes[i].score != UnratedScore
    ensures url in RatedOf(animes) ==> RatedOf(animes)[url] != UnratedScore
  {
    if animes != [] {
      var init := animes[..|animes| - 1];
      RatedOfKeys(init, url);
      if exists i :: 0 <= i < |init| && init[i].url == url && init[i].score != UnratedScore {
        var i :| 0 <= i < |init| && init[i].url == url && init[i].score != UnratedScore;
        assert animes[i] == init[i];
      }
      if exists i :: 0 <= i < |animes| && animes[i].url == url && animes[i].score != UnratedScore {
        var i :| 0 <= i < |animes| && animes[i].url == url && animes[i].score != UnratedScore;
        if i < |init| { assert init[i] == animes[i]; }
      }
    }
  }

  /** The stored rating of a url is the score of its last rated occurrence. */
  lemma {:induction false} RatedOfLastWins(animes: seq<Item>, i: int)
    requires 0 <= i < |animes| && animes[i].score != UnratedScore
    requires forall j :: i < j < |animes| && animes[j].url == animes[i].url ==> animes[j].score == UnratedScore
    ensures animes[i].url in RatedOf(animes) && RatedOf(animes)[animes[i].url] == animes[i].score
  {
    var init := animes[..|animes| - 1];
    if i < |init| {
      RatedOfLastWins(init, i);
    }
  }

  /** The urls of the first DefaultSeedAnimeNumber items of a best-first list. */
  function SeedUrlsOf(completedScoreDesc: seq<Item>): seq<string>
  {
    var seedAnime := completedScoreDesc[..if |completedScoreDesc| < DefaultSeedAnimeNumber
                                           then |completedScoreDesc| else DefaultSeedAnimeNumber];
    seq(|seedAnime|, i requires 0 <= i < |seedAnime| => seedAnime[i].url)
  }

  /** The lists a fresh AnimeList holds; they are never changed afterwards. */
  class AnimeList {
    const user: string
    /** The pages the list was built from. */
    ghost const source: seq<seq<Item>>
    const excludedAnimeUrls: set<string>
    const completedAnimesScoreDesc: seq<Item>
    const ratedAnimes: map<string, int>

    ghost predicate Valid()
    {
      && excludedAnimeUrls == ExcludedOf(Flatten(source))
      && completedAnimesScoreDesc == SortDesc(CompletedOf(Flatten(source)), ScoreKey)
      && ratedAnimes == RatedOf(Flatten(source))
    }

    /** One pass over all items of all pages, then the stable sort of the
        completed items by score, best first. */
    constructor (user: string, animePages: seq<seq<Item>>)
      ensures this.user == user && source == animePages && Valid()
    {
      var excluded: set<string> := {};
      var completed: seq<Item> := [];
      var rated: map<string, int> := map[];
      for p := 0 to |animePages|
        invariant excluded == ExcludedOf(Flatten(animePages[..p]))
        invariant completed == CompletedOf(Flatten(animePages[..p]))
        invariant rated == RatedOf(Flatten(animePages[..p]))
      {
        var animes := animePages[p];
        ghost var done := Flatten(animePages[..p]);
        assert done + animes[..0] == done;
        for i := 0 to |animes|
          invariant excluded == ExcludedOf(done + animes[..i])
          invariant completed == CompletedOf(done + animes[..i])
          invariant rated == RatedOf(done + animes[..i])
        {
          var anime := animes[i];
          assert (done + animes[..i + 1])[..|done + animes[..i + 1]| - 1] == done + animes[..i];
          if IsExcluded(anime) {
            excluded := excluded + {anime.url};
          }
          if anime.status == Completed.Value() {
            completed := completed + [anime];
          }
          var score := anime.score;
          if score != UnratedScore {
            rated := rated[anime.url := score];
          }
        }
        assert animes[..|animes|] == animes;
        FlattenPrefix(animePages, p);
      }
      assert animePages[..|animePages|] == animePages;
      this.user := user;
      source := animePages;
      excludedAnimeUrls := excluded;
      completedAnimesScoreDesc := SortDesc(completed, ScoreKey);
      ratedAnimes := rated;
    }

    /** The urls of the first DefaultSeedAnimeNumber completed items, best
        first; none when nothing was completed. */
    function SeedAnimeUrls(): (urls: seq<string>)
      ensures |urls| == if |completedAnimesScoreDesc| < DefaultSeedAnimeNumber
                        then |completedAnimesScoreDesc| else DefaultSeedAnimeNumber
      ensures forall i :: 0 <= i < |urls| ==> urls[i] == completedAnimesScoreDesc[i].url
    {
      SeedUrlsOf(completedAnimesScoreDesc)
    }
  }

  /** The completed list is a permutation of the completed items, best score
      first, and items with equal scores keep their encounter order. */
  lemma CompletedSortedStable(al: AnimeList, score: int)
    requires al.Valid()
    ensures multiset(al.completedAnimesScoreDesc) == multiset(CompletedOf(Flatten(al.source)))
    ensures forall i, j :: 0 <= i < j < |al.completedAnimesScoreDesc|
              ==> al.completedAnimesScoreDesc[i].score >= al.completedAnimesScoreDesc[j].score
    ensures WithKey(al.completedAnimesScoreDesc, ScoreKey, score as real)
            == WithKey(CompletedOf(Flatten(al.source)), ScoreKey, score as real)
  {
    var completed := CompletedOf(Flatten(al.source));
    SortDescSorted(completed, ScoreKey);
    SortDescStable(completed, ScoreKey, score as real);
  }

  /** The seed is the url of the earliest completed item with the highest
      score; a list without completed items gives no seed. */
  lemma SeedIsBestCompleted(al: AnimeList)
    requires al.Valid()
    ensures var completed := CompletedOf(Flatten(al.source));
            && (al.SeedAnimeUrls() == [] <==> completed == [])
            && (completed != [] ==>
                  exists i :: IsFirstMax(completed, ScoreKey, i) && al.SeedAnimeUrls() == [completed[i].url])
  {
    var completed := CompletedOf(Flatten(al.source));
    if completed != [] {
      SortDescHead(completed, ScoreKey);
      var i :| IsFirstMax(completed, ScoreKey, i) && al.completedAnimesScoreDesc[0] == completed[i];
      assert al.SeedAnimeUrls() == [completed[i].url];
    }
  }
}

=== FILE: common.dfy ===
/** Values shared by every part of the model: optional values, the failures a
    request can end with, and the concatenation of a sequence of pages. */
module Common {

  datatype Option<T> = None | Some(value: T)

  /** The exceptions of the modelled code that end a suggestion request. The
      first three are the ValueErrors of the username check; the last two
      escape from the page parser (a missing marker node) and from the
      correlation routine. Exceptions of the HTTP transport are not among
      them: the site is modelled by the responses it gives after retries. */
  datatype Failure =
    | EmptyUsername
    | UsernameTooLong
    | InvalidCharacter
    | MarkerNotFound
    | CorrelationFailed

  datatype Result<T> = Ok(value: T) | Err(error: Failure)

  /** The elements of all pages, page after page. */
  function Flatten<T>(pages: seq<seq<T>>): seq<T>
  {
    if pages == [] then [] else Flatten(pages[..|pages| - 1]) + pages[|pages| - 1]
  }

  lemma FlattenSnoc<T>(pages: seq<seq<T>>, page: seq<T>)
    ensures Flatten(pages + [page]) == Flatten(pages) + page
  {
    assert (pages + [page])[..|pages|] == pages;
  }

  /** Extending the pages only extends their concatenation. */
  lemma {:induction false} FlattenMonotone<T>(short: seq<seq<T>>, long: seq<seq<T>>)
    requires short <= long
    ensures Flatten(short) <= Flatten(long)
    decreases |long|
  {
    if short != long {
      var init := long[..|long| - 1];
      assert short == init[..|short|];
      FlattenMonotone(short, init);
    }
  }

  lemma FlattenPrefix<T>(pages: seq<seq<T>>, p: nat)
    requires p < |pages|
    ensures Flatten(pages[..p + 1]) == Flatten(pages[..p]) + pages[p]
  {
    assert pages[..p + 1] == pages[..p] + [pages[p]];
    FlattenSnoc(pages[..p], pages[p]);
  }
}

=== FILE: fetcher.dfy ===
/** Retrieval of list pages and recommendation pages through a key-value
    cache. The web site, the page parser and the cache's initial contents are
    given from outside; the fetcher reads through the cache and writes to it
    only on a miss. */
module Fetching {
  import opened Common
  import opened AnimeLists

  /** Records per list page; a shorter page is the last one. */
  const MalPageSize: nat := 300
  const HttpOk: int := 200

  datatype ListResponse = ListResponse(statusCode: int, animes: seq<Item>)
  datatype PageResponse = PageResponse(statusCode: int, text: string)

  /** One suggestion scraped from a recommendation page. */
  datatype Recommendation = Recommendation(url: string, title: string, user: string)

  /** The site: the list page of a user at an offset, and the
      recommendation page of a title. */
  datatype Web = Web(listPage: (string, int) -> ListResponse, recommendationPage: string -> PageResponse)

  /** A request the fetcher sent to the site. */
  datatype Request = ListPageRequest(user: string, offset: int) | RecommendationPageRequest(animeUrl: string)

  /** A cached value: the list pages of a user, or a recommendation page body. */
  datatype Blob = PagesJson(pages: seq<seq<Item>>) | Html(text: string)

  function ListKey(username: string): string { "al:" + username }
  function RecommendationKey(animeUrl: string): string { "userrec:" + animeUrl }

  predicate IsListKey(key: string) { |key| >= 3 && key[..3] == "al:" }
  predicate IsRecommendationKey(key: string) { |key| >= 8 && key[..8] == "userrec:" }

  /** The two kinds of key never collide, and each gives back what it was made from. */
  lemma KeysDecode(username: string, animeUrl: string)
    ensures IsListKey(ListKey(username)) && ListKey(username)[3..] == username
    ensures !IsRecommendationKey(ListKey(username))
    ensures IsRecommendationKey(RecommendationKey(animeUrl)) && RecommendationKey(animeUrl)[8..] == animeUrl
    ensures !IsListKey(RecommendationKey(animeUrl))
    ensures ListKey(username) != RecommendationKey(animeUrl)
  {
    assert ListKey(username)[0] == 'a';
    assert RecommendationKey(animeUrl)[0] == 'u';
  }

  /** Every list key holds pages and every recommendation key holds a page body. */
  ghost predicate WellTyped(cache: map<string, Blob>)
  {
    forall key :: key in cache ==>
      (IsListKey(key) ==> cache[key].PagesJson?) && (IsRecommendationKey(key) ==> cache[key].Html?)
  }

  // ---------------------------------------------------------------------
  // Pagination

  /** The response for page number `page` of a user's list. */
  function PageAt(web: Web, user: string, page: nat): ListResponse
  {
    web.listPage(user, page * MalPageSize)
  }

  /** A response after which the fetch loop stops: a failure or a short page. */
  predicate EndsPagination(r: ListResponse)
  {
    r.statusCode != HttpOk || |r.animes| != MalPageSize
  }

  ghost predicate EndsFor(web: Web, user: string)
  {
    exists n: nat :: EndsPagination(PageAt(web, user, n))
  }

  /** Every user's list ends somewhere. */
  ghost predicate Paginates(web: Web)
  {
    forall user :: EndsFor(web, user)
  }

  /** Page `n` is the first page that ends the loop. */
  ghost predicate IsFirstStop(web: Web, user: string, n: nat)
  {
    EndsPagination(PageAt(web, user, n))
    && forall i: nat :: i < n ==> !EndsPagination(PageAt(web, user, i))
  }

  /** Any page that ends the loop has a first such page at or before it. */
  lemma {:induction false} FirstStopExists(web: Web, user: string, m: nat)
    requires EndsPagination(PageAt(web, user, m))
    ensures exists n: nat :: n <= m && IsFirstStop(web, user, n)
    decreases m
  {
    if !IsFirstStop(web, user, m) {
      var i: nat :| i < m && EndsPagination(PageAt(web, user, i));
      FirstStopExists(web, user, i);
    }
  }

  ghost function FirstStop(web: Web, user: string): (n: nat)
    requires EndsFor(web, user)
    ensures IsFirstStop(web, user, n)
  {
    var m: nat :| EndsPagination(PageAt(web, user, m));
    FirstStopExists(web, user, m);
    var n: nat :| IsFirstStop(web, user, n);
    n
  }

  /** The pages a complete pagination run collects: every full page before the
      first stop, then the stopping page if it was delivered. */
  ghost function FetchedPages(web: Web, user: string): seq<seq<Item>>
    requires EndsFor(web, user)
  {
    var n := FirstStop(web, user);
    var last := PageAt(web, user, n);
    seq(n, i requires 0 <= i < n => PageAt(web, user, i).animes)
      + (if last.statusCode == HttpOk then [last.animes] else [])
  }

  /** The requests of a pagination run that sends `n` requests. */
  function ListRequests(user: string, n: nat): seq<Request>
  {
    seq(n, i requires 0 <= i < n => ListPageRequest(user, i * MalPageSize))
  }

  /** The collected pages are the delivered pages in page order; all but the
      last hold exactly MalPageSize items; when no page was collected or the
      last one is full, the request for the next page failed: a failed
      request contributes nothing and what came before it is kept. */
  lemma FetchedPagesShape(web: Web, user: string)
    requires EndsFor(web, user)
    ensures var pages := FetchedPages(web, user);
            && (forall i :: 0 <= i < |pages| ==>
                  PageAt(web, user, i).statusCode == HttpOk && pages[i] == PageAt(web, user, i).animes)
            && (forall i :: 0 <= i < |pages| - 1 ==> |pages[i]| == MalPageSize)
            && ((pages == [] || |pages[|pages| - 1]| == MalPageSize)
                  ==> PageAt(web, user, |pages|).statusCode != HttpOk)
  {
  }

  // ---------------------------------------------------------------------
  // What a lookup sees

  /** The pages a lookup of `username` yields against `cache`: the cached
      pages on a hit, a fresh pagination run on a miss. */
  ghost function ListView(web: Web, cache: map<string, Blob>, username: string): seq<seq<Item>>
    requires Paginates(web) && WellTyped(cache)
  {
    var key := ListKey(username);
    KeysDecode(username, "");
    if key in cache then cache[key].pages else FetchedPages(web, username)
  }

  /** The ratings of `username` as a lookup against `cache` yields them. */
  ghost function RatingsView(web: Web, cache: map<string, Blob>, username: string): map<string, int>
    requires Paginates(web) && WellTyped(cache)
  {
    RatedOf(Flatten(ListView(web, cache, username)))
  }

  /** The body a recommendation lookup parses, if any. */
  function RecommendationBody(web: Web, cache: map<string, Blob>, animeUrl: string): Option<string>
    requires WellTyped(cache)
  {
    var key := RecommendationKey(animeUrl);
    KeysDecode("", animeUrl);
    if key in cache then Some(cache[key].text)
    else if web.recommendationPage(animeUrl).statusCode == HttpOk then Some(web.recommendationPage(animeUrl).text)
    else None
  }

  /** A parse whose marker node is missing fails the request. */
  function ParseRecommendationHtml(parse: string -> Option<seq<Recommendation>>, html: string): Result<seq<Recommendation>>
  {
    match parse(html)
    case None => Err(MarkerNotFound)
    case Some(recs) => Ok(recs)
  }

  /** The outcome of a recommendation lookup of `animeUrl` against `cache`. */
  function RecommendationsView(web: Web, parse: string -> Option<seq<Recommendation>>,
                               cache: map<string, Blob>, animeUrl: string): Result<seq<Recommendation>>
    requires WellTyped(cache)
  {
    match RecommendationBody(web, cache, animeUrl)
    case None => Ok([])
    case Some(html) => ParseRecommendationHtml(parse, html)
  }

  /** A cache entry the fetcher itself writes: the full pagination run of a
      user, or a recommendation page body served with status 200. */
  ghost predicate Coherent(web: Web, key: string, value: Blob)
  {
    if IsListKey(key) then
      EndsFor(web, key[3..]) && value == PagesJson(FetchedPages(web, key[3..]))
    else
      IsRecommendationKey(key)
      && web.recommendationPage(key[8..]).statusCode == HttpOk
      && value == Html(web.recommendationPage(key[8..]).text)
  }

  /** `after` keeps every entry of `before` and adds only coherent entries. */
  ghost predicate Extends(web: Web, before: map<string, Blob>, after: map<string, Blob>)
  {
    && (forall key :: key in before ==> key in after && after[key] == before[key])
    && (forall key :: key in after && key !in before ==> Coherent(web, key, after[key]))
  }

  lemma ExtendsTransitive(web: Web, c0: map<string, Blob>, c1: map<string, Blob>, c2: map<string, Blob>)
    requires Extends(web, c0, c1) && Extends(web, c1, c2)
    ensures Extends(web, c0, c2)
  {
  }

  /** Read-through caching never changes what a list lookup yields. */
  lemma ListViewStable(web: Web, before: map<string, Blob>, after: map<string, Blob>, username: string)
    requires Paginates(web) && WellTyped(before) && WellTyped(after) && Extends(web, before, after)
    ensures ListView(web, after, username) == ListView(web, before, username)
  {
    KeysDecode(username, "");
    var key := ListKey(username);
    if key in after && key !in before {
      assert Coherent(web, key, after[key]);
    }
  }

  /** Caching the pages fetched on a miss makes the next lookup of the user a
      hit that gives back the very pages the fetch collected. */
  lemma ListCacheRoundTrip(web: Web, cache: map<string, Blob>, username: string)
    requires Paginates(web) && WellTyped(cache) && ListKey(username) !in cache
    ensures var cached := cache[ListKey(username) := PagesJson(FetchedPages(web, username))];
            && WellTyped(cached)
            && Extends(web, cache, cached)
            && ListView(web, cached, username) == ListView(web, cache, username) == FetchedPages(web, username)
            && RatingsView(web, cached, username) == RatingsView(web, cache, username)
            && ListKey(username) in cached
  {
    var key := ListKey(username);
    KeysDecode(username, "");
    var cached := cache[key := PagesJson(FetchedPages(web, username))];
    assert Coherent(web, key, cached[key]);
  }

  /** Read-through caching never changes what a recommendation lookup yields. */
  lemma RecommendationsViewStable(web: Web, parse: string -> Option<seq<Recommendation>>,
                                  before: map<string, Blob>, after: map<string, Blob>, animeUrl: string)
    requires WellTyped(before) && WellTyped(after) && Extends(web, before, after)
    ensures RecommendationBody(web, after, animeUrl) == RecommendationBody(web, before, animeUrl)
    ensures RecommendationsView(web, parse, after, animeUrl) == RecommendationsView(web, parse, before, animeUrl)
  {
    KeysDecode("", animeUrl);
    var key := RecommendationKey(animeUrl);
    if key in after && key !in before {
      assert Coherent(web, key, after[key]);
    }
  }

  class AnimeListFetcher {
    const web: Web
    /** The page parser; None when the page has no marker node. */
    const parse: string -> Option<seq<Recommendation>>
    /** The key-value store. */
    var cache: map<string, Blob>
    /** Every request sent to the site, oldest first. */
    ghost var requests: seq<Request>

    ghost predicate Valid()
      reads this
    {
      Paginates(web) && WellTyped(cache)
    }

    constructor (web: Web, parse: string -> Option<seq<Recommendation>>, cache: map<string, Blob>)
      requires Paginates(web) && WellTyped(cache)
      ensures Valid() && this.web == web && this.parse == parse && this.cache == cache && requests == []
    {
      this.web := web;
      this.parse := parse;
      this.cache := cache;
      requests := [];
    }

    method RequestListPage(username: string, offset: int) returns (response: ListResponse)
      modifies this`requests
      ensures response == web.listPage(username, offset)
      ensures requests == old(requests) + [ListPageRequest(username, offset)]
    {
      requests := requests + [ListPageRequest(username, offset)];
      response := web.listPage(username, offset);
    }

    method RequestRecommendationPage(animeUrl: string) returns (response: PageResponse)
      modifies this`requests
      ensures response == web.recommendationPage(animeUrl)
      ensures requests == old(requests) + [RecommendationPageRequest(animeUrl)]
    {
      requests := requests + [RecommendationPageRequest(animeUrl)];
      response := web.recommendationPage(animeUrl);
    }

    /** The list of `username`: the cached pages on a hit; on a miss the
        fetched pages, which are then cached even when a page failed. */
    method AnimeListFor(username: string) returns (animeList: AnimeList)
      requires Valid()
      modifies this`cache, this`requests
      ensures Valid() && Extends(web, old(cache), cache)
      ensures fresh(animeList) && animeList.Valid() && animeList.user == username
      ensures animeList.source == ListView(web, old(cache), username)
      ensures ListKey(username) in old(cache) ==> cache == old(cache) && requests == old(requests)
      ensures ListKey(username) !in old(cache) ==>
                && cache == old(cache)[ListKey(username) := PagesJson(animeList.source)]
                && requests == old(requests) + ListRequests(username, FirstStop(web, username) + 1)
    {
      var key := ListKey(username);
      KeysDecode(username, "");
      var animePages: seq<seq<Item>>;
      if key !in cache {
        animePages := FetchAnimes(username);
        cache := cache[key := PagesJson(animePages)];
      } else {
        animePages := cache[key].pages;
      }
      animeList := new AnimeList(username, animePages);
    }

    /** Requests pages at offsets 0, 300, 600, ... until a request fails or a
        page is not full; a failed page is not kept, earlier pages are. */
    method FetchAnimes(username: string) returns (animePages: seq<seq<Item>>)
      requires Valid()
      modifies this`requests
      ensures animePages == FetchedPages(web, username)
      ensures requests == old(requests) + ListRequests(username, FirstStop(web, username) + 1)
    {
      ghost var stop := FirstStop(web, username);
      var page: nat := 0;
      animePages := [];
      while true
        invariant page <= stop
        invariant animePages == seq(page, i requires 0 <= i < page => PageAt(web, username, i).animes)
        invariant forall i: nat :: i < page ==> !EndsPagination(PageAt(web, username, i))
        invariant requests == old(requests) + ListRequests(username, page)
        decreases stop - page
      {
        var offset := page * MalPageSize;
        var response := RequestListPage(username, offset);
        assert response == PageAt(web, username, page);
        assert ListRequests(username, page) + [ListPageRequest(username, offset)]
               == ListRequests(username, page + 1);
        if response.statusCode == HttpOk {
          animePages := animePages + [response.animes];
          if |response.animes| != MalPageSize {
            assert page == stop;
            return;
          }
          page := page + 1;
        } else {
          assert page == stop;
          return;
        }
      }
    }

    /** The scraped recommendations of `animeUrl`. A cached body is parsed
        without a request; otherwise the page is requested and, only on
        status 200, cached and parsed; any other status gives none. */
    method Recommendations(animeUrl: string) returns (recs: Result<seq<Recommendation>>)
      requires Valid()
      modifies this`cache, this`requests
      ensures Valid() && Extends(web, old(cache), cache)
      ensures recs == RecommendationsView(web, parse, old(cache), animeUrl)
      ensures RecommendationKey(animeUrl) in old(cache) ==> cache == old(cache) && requests == old(requests)
      ensures RecommendationKey(animeUrl) !in old(cache) ==>
                requests == old(requests) + [RecommendationPageRequest(animeUrl)]
      ensures RecommendationKey(animeUrl) !in old(cache) ==>
                var response := web.recommendationPage(animeUrl);
                if response.statusCode == HttpOk
                then cache == old(cache)[RecommendationKey(animeUrl) := Html(response.text)]
                else cache == old(cache) && recs == Ok([])
    {
      var key := RecommendationKey(animeUrl);
      KeysDecode("", animeUrl);
      if key !in cache {
        var response := RequestRecommendationPage(animeUrl);
        if response.statusCode == HttpOk {
          cache := cache[key := Html(response.text)];
          recs := ParseRecommendationHtml(parse, response.text);
        } else {
          recs := Ok([]);
        }
      } else {
        recs := ParseRecommendationHtml(parse, cache[key].text);
      }
    }
  }
}

=== FILE: sorting.dfy ===
/** The stable descending sort the source obtains from `list.sort(key=...,
    reverse=True)`: elements are ordered by a key, largest first, and
    elements with equal keys keep their original relative order. The sort is
    specified by a stable insertion sort; its properties are proved below. */
module Sorting {

  /** Keys never increase from left to right. */
  ghost predicate SortedDesc<T>(s: seq<T>, key: T -> real)
  {
    forall i, j :: 0 <= i < j < |s| ==> key(s[i]) >= key(s[j])
  }

  /** The subsequence of `s` whose elements have key `k`, in their order in `s`. */
  function WithKey<T>(s: seq<T>, key: T -> real, k: real): seq<T>
  {
    if s == [] then []
    else (if key(s[0]) == k then [s[0]] else []) + WithKey(s[1..], key, k)
  }

  /** No two elements of `s` share an `f`-value. */
  ghost predicate DistinctBy<T, U>(s: seq<T>, f: T -> U)
  {
    forall i, j :: 0 <= i < j < |s| ==> f(s[i]) != f(s[j])
  }

  /** Places `x` in front of the first element whose key is not larger. */
  function Insert<T>(x: T, s: seq<T>, key: T -> real): (r: seq<T>)
    ensures multiset(r) == multiset(s) + multiset{x}
  {
    if s == [] || key(s[0]) <= key(x) then [x] + s
    else
      assert s == [s[0]] + s[1..];
      [s[0]] + Insert(x, s[1..], key)
  }

  /** The stable sort by `key`, largest first. */
  function SortDesc<T>(s: seq<T>, key: T -> real): (r: seq<T>)
    ensures multiset(r) == multiset(s)
  {
    if s == [] then []
    else
      assert s == [s[0]] + s[1..];
      Insert(s[0], SortDesc(s[1..], key), key)
  }

  lemma {:induction false} InsertSorted<T>(x: T, s: seq<T>, key: T -> real)
    requires SortedDesc(s, key)
    ensures SortedDesc(Insert(x, s, key), key)
  {
    if s == [] || key(s[0]) <= key(x) {
    } else {
      InsertSorted(x, s[1..], key);
      var t := Insert(x, s[1..], key);
      forall j | 0 <= j < |t| ensures key(s[0]) >= key(t[j]) {
        assert t[j] in multiset(t);
        assert t[j] in multiset(s[1..]) || t[j] == x;
        if t[j] != x {
          var k :| 0 <= k < |s[1..]| && s[1..][k] == t[j];
          assert s[k + 1] == t[j];
        }
      }
    }
  }

  /** The sort's result is ordered by key, largest first. */
  lemma {:induction false} SortDescSorted<T>(s: seq<T>, key: T -> real)
    ensures SortedDesc(SortDesc(s, key), key)
  {
    if s != [] {
      SortDescSorted(s[1..], key);
      InsertSorted(s[0], SortDesc(s[1..], key), key);
    }
  }

  lemma {:induction false} InsertWithKey<T>(x: T, s: seq<T>, key: T -> real, k: real)
    requires SortedDesc(s, key)
    ensures WithKey(Insert(x, s, key), key, k) == (if key(x) == k then [x] else []) + WithKey(s, key, k)
  {
    if s == [] || key(s[0]) <= key(x) {
      assert ([x] + s)[1..] == s;
    } else {
      assert SortedDesc(s[1..], key);
      InsertWithKey(x, s[1..], key, k);
      var t := Insert(x, s[1..], key);
      assert ([s[0]] + t)[1..] == t;
      assert WithKey(s, key, k) == (if key(s[0]) == k then [s[0]] else []) + WithKey(s[1..], key, k);
    }
  }

  /** Stability: for every key, the elements carrying it appear in the result
      in exactly the order they had in the input. */
  lemma {:induction false} SortDescStable<T>(s: seq<T>, key: T -> real, k: real)
    ensures WithKey(SortDesc(s, key), key, k) == WithKey(s, key, k)
  {
    if s != [] {
      SortDescStable(s[1..], key, k);
      SortDescSorted(s[1..], key);
      InsertWithKey(s[0], SortDesc(s[1..], key), key, k);
    }
  }

  /** `s[i]` has the largest key of `s` and no earlier element has that key. */
  ghost predicate IsFirstMax<T>(s: seq<T>, key: T -> real, i: int)
  {
    0 <= i < |s|
    && (forall j :: 0 <= j < |s| ==> key(s[j]) <= key(s[i]))
    && (forall j :: 0 <= j < i ==> key(s[j]) < key(s[i]))
  }

  lemma FirstMaxShift<T>(s: seq<T>, key: T -> real, i: int)
    requires s != [] && IsFirstMax(s[1..], key, i) && key(s[0]) < key(s[1..][i])
    ensures IsFirstMax(s, key, i + 1)
  {
    forall j | 0 < j < |s| ensures key(s[j]) <= key(s[i + 1]) {
      assert s[j] == s[1..][j - 1];
    }
    forall j | 0 < j < i + 1 ensures key(s[j]) < key(s[i + 1]) {
      assert s[j] == s[1..][j - 1];
    }
  }

  lemma FirstMaxAtHead<T>(s: seq<T>, key: T -> real, i: int)
    requires s != [] && IsFirstMax(s[1..], key, i) && key(s[1..][i]) <= key(s[0])
    ensures IsFirstMax(s, key, 0)
  {
    forall j | 0 < j < |s| ensures key(s[j]) <= key(s[0]) {
      assert s[j] == s[1..][j - 1];
    }
  }

  /** The first element of the result is the earliest element of the input
      whose key is maximal. */
  lemma {:induction false} SortDescHead<T>(s: seq<T>, key: T -> real)
    requires s != []
    ensures exists i :: IsFirstMax(s, key, i) && SortDesc(s, key)[0] == s[i]
  {
    var t := SortDesc(s[1..], key);
    if s[1..] == [] {
      assert IsFirstMax(s, key, 0);
    } else {
      SortDescHead(s[1..], key);
      var i :| IsFirstMax(s[1..], key, i) && t[0] == s[1..][i];
      if key(t[0]) <= key(s[0]) {
        FirstMaxAtHead(s, key, i);
        assert SortDesc(s, key)[0] == s[0];
      } else {
        FirstMaxShift(s, key, i);
        assert SortDesc(s, key)[0] == s[i + 1];
      }
    }
  }

  lemma {:induction false} InsertKeepsDistinct<T, U>(x: T, s: seq<T>, key: T -> real, f: T -> U)
    requires DistinctBy(s, f)
    requires forall y :: y in s ==> f(y) != f(x)
    ensures DistinctBy(Insert(x, s, key), f)
  {
    if s == [] || key(s[0]) <= key(x) {
      var r := [x] + s;
      forall i, j | 0 <= i < j < |r| ensures f(r[i]) != f(r[j]) {
        if i > 0 { assert r[i] == s[i - 1] && r[j] == s[j - 1]; } else { assert r[j] in s; }
      }
    } else {
      InsertKeepsDistinct(x, s[1..], key, f);
      var t := Insert(x, s[1..], key);
      var r := [s[0]] + t;
      forall i, j | 0 <= i < j < |r| ensures f(r[i]) != f(r[j]) {
        if i == 0 {
          assert r[j] == t[j - 1];
          assert t[j - 1] in multiset(t);
          if t[j - 1] != x {
            assert t[j - 1] in multiset(s[1..]);
            var k :| 0 <= k < |s[1..]| && s[1..][k] == t[j - 1];
            assert s[k + 1] == t[j - 1];
          }
        } else {
          assert r[i] == t[i - 1] && r[j] == t[j - 1];
        }
      }
    }
  }

  /** Sorting never makes two elements share an `f`-value. */
  lemma {:induction false} SortDescKeepsDistinct<T, U>(s: seq<T>, key: T -> real, f: T -> U)
    requires DistinctBy(s, f)
    ensures DistinctBy(SortDesc(s, key), f)
  {
    if s != [] {
      assert DistinctBy(s[1..], f);
      SortDescKeepsDistinct(s[1..], key, f);
      var t := SortDesc(s[1..], key);
      forall y | y in t ensures f(y) != f(s[0]) {
        assert y in multiset(s[1..]);
        var k :| 0 <= k < |s[1..]| && s[1..][k] == y;
        assert s[k + 1] == y;
      }
      InsertKeepsDistinct(s[0], t, key, f);
    }
  }

  /** Every element of the result comes from the input. */
  lemma SortDescMembers<T>(s: seq<T>, key: T -> real, x: T)
    ensures x in SortDesc(s, key) <==> x in s
  {
    assert x in SortDesc(s, key) <==> x in multiset(SortDesc(s, key));
  }
}

=== FILE: suggest.dfy ===
/** The suggestion pipeline: the username check, the alignment of two users'
    ratings, the affinity of a recommender, and the aggregation of the
    recommendations of the seed titles into a ranked list. */
module Suggestions {
  import opened Common
  import opened Sorting
  import opened AnimeLists
  import opened Fetching

  const MaxUsernameLength: nat := 32

  /** What the correlation routine gives for two aligned score sequences: a
      coefficient, NaN, or an exception. */
  datatype Correlation = Coefficient(r: real) | NotANumber | Raised

  /** A recommendation with the affinity of its recommender. */
  datatype Suggestion = Suggestion(rec: Recommendation, affinity: real)

  function AffinityKey(s: Suggestion): real { s.affinity }
  function RecommendationUrl(rec: Recommendation): string { rec.url }
  function SuggestionUrl(s: Suggestion): string { s.rec.url }

  // ---------------------------------------------------------------------
  // Username check

  /** A character of the class `[\w-]`; what `\w` holds is the regex engine's. */
  predicate UsernameChar(isWordChar: char -> bool, c: char)
  {
    isWordChar(c) || c == '-'
  }

  /** `^[\w-]*$` matches: all characters are in the class, or all but a final
      newline are, since `$` also matches just before a trailing newline. */
  predicate MatchesUsernamePattern(isWordChar: char -> bool, user: string)
  {
    (forall i :: 0 <= i < |user| ==> UsernameChar(isWordChar, user[i]))
    || (|user| > 0 && user[|user| - 1] == '\n'
        && forall i :: 0 <= i < |user| - 1 ==> UsernameChar(isWordChar, user[i]))
  }

  /** None when the username is accepted, otherwise the first check it fails. */
  function ValidateUsername(isWordChar: char -> bool, user: string): (r: Option<Failure>)
    ensures r == None <==> 0 < |user| <= MaxUsernameLength && MatchesUsernamePattern(isWordChar, user)
    ensures r == Some(EmptyUsername) <==> user == ""
    ensures r == Some(UsernameTooLong) <==> |user| > MaxUsernameLength
    ensures r == Some(InvalidCharacter)
            <==> 0 < |user| <= MaxUsernameLength && !MatchesUsernamePattern(isWordChar, user)
  {
    if user == "" then Some(EmptyUsername)
    else if |user| > MaxUsernameLength then Some(UsernameTooLong)
    else if !MatchesUsernamePattern(isWordChar, user) then Some(InvalidCharacter)
    else None
  }

  /** Every character of an accepted username but the last is in `[\w-]`, and
      the last one is in the class or is a newline. */
  lemma AcceptedUsernameCharacters(isWordChar: char -> bool, user: string)
    requires ValidateUsername(isWordChar, user) == None
    ensures 0 < |user| <= MaxUsernameLength
    ensures forall i :: 0 <= i < |user| - 1 ==> UsernameChar(isWordChar, user[i])
    ensures UsernameChar(isWordChar, user[|user| - 1]) || user[|user| - 1] == '\n'
  {
  }

  /** A name of class characters followed by one newline is accepted. */
  lemma TrailingNewlineAccepted(isWordChar: char -> bool, name: string)
    requires |name| < MaxUsernameLength
    requires forall i :: 0 <= i < |name| ==> UsernameChar(isWordChar, name[i])
    ensures ValidateUsername(isWordChar, name + "\n") == None
  {
    var user := name + "\n";
    forall i | 0 <= i < |user| - 1 ensures UsernameChar(isWordChar, user[i]) {
      assert user[i] == name[i];
    }
  }

  // ---------------------------------------------------------------------
  // Filtering and de-duplication

  function Urls(recs: seq<Recommendation>): set<string>
  {
    set i | 0 <= i < |recs| :: recs[i].url
  }

  /** Position `i` holds the first recommendation of its url. */
  ghost predicate FirstOccurrence(recs: seq<Recommendation>, i: int)
  {
    0 <= i < |recs| && forall j :: 0 <= j < i ==> recs[j].url != recs[i].url
  }

  /** The recommendations that are kept, in encounter order: those whose url
      is neither excluded nor already kept. */
  function Accept(recs: seq<Recommendation>, excluded: set<string>): seq<Recommendation>
  {
    if recs == [] then []
    else
      var kept := Accept(recs[..|recs| - 1], excluded);
      var rec := recs[|recs| - 1];
      if rec.url in excluded || rec.url in Urls(kept) then kept else kept + [rec]
  }

  /** No kept recommendation has an excluded url, no two share a url, and
      each of them was scraped. */
  lemma {:induction false} AcceptSound(recs: seq<Recommendation>, excluded: set<string>)
    ensures var kept := Accept(recs, excluded);
            && (forall j :: 0 <= j < |kept| ==> kept[j].url !in excluded && kept[j] in recs)
            && DistinctBy(kept, RecommendationUrl)
  {
    if recs != [] {
      var init := recs[..|recs| - 1];
      AcceptSound(init, excluded);
      var kept := Accept(init, excluded);
      var rec := recs[|recs| - 1];
      forall j | 0 <= j < |kept| ensures kept[j] in recs {
        assert kept[j] in init;
      }
      if !(rec.url in excluded || rec.url in Urls(kept)) {
        var r := kept + [rec];
        forall i, j | 0 <= i < j < |r| ensures r[i].url != r[j].url {
          if j == |kept| {
            assert r[i].url in Urls(kept);
          }
        }
      }
    }
  }

  lemma UrlsSnoc(recs: seq<Recommendation>, rec: Recommendation)
    ensures Urls(recs + [rec]) == Urls(recs) + {rec.url}
  {
    var r := recs + [rec];
    forall u | u in Urls(r) ensures u in Urls(recs) + {rec.url} {
      var k :| 0 <= k < |r| && r[k].url == u;
      if k < |recs| {
        assert r[k] == recs[k];
      } else {
        assert r[k] == rec;
      }
    }
    forall u | u in Urls(recs) + {rec.url} ensures u in Urls(r) {
      if u in Urls(recs) {
        var k :| 0 <= k < |recs| && recs[k].url == u;
        assert r[k] == recs[k];
      } else {
        assert r[|recs|] == rec;
      }
    }
  }

  /** The first recommendation of every url that is not excluded is kept. */
  lemma {:induction false} AcceptComplete(recs: seq<Recommendation>, excluded: set<string>)
    ensures var kept := Accept(recs, excluded);
            && (forall i :: FirstOccurrence(recs, i) && recs[i].url !in excluded ==> recs[i] in kept)
            && Urls(kept) == Urls(recs) - excluded
  {
    if recs != [] {
      var n := |recs| - 1;
      var init := recs[..n];
      var rec := recs[n];
      assert recs == init + [rec];
      AcceptComplete(init, excluded);
      AcceptSound(init, excluded);
      var kept := Accept(init, excluded);
      UrlsSnoc(init, rec);
      if !(rec.url in excluded || rec.url in Urls(kept)) {
        UrlsSnoc(kept, rec);
      }
      forall i | FirstOccurrence(recs, i) && recs[i].url !in excluded
        ensures recs[i] in Accept(recs, excluded)
      {
        if i < n {
          assert FirstOccurrence(init, i);
        } else {
          FirstOccurrenceIsNew(recs, excluded);
        }
      }
    }
  }

  /** The last recommendation, when it is the first of its url, is not yet kept. */
  lemma FirstOccurrenceIsNew(recs: seq<Recommendation>, excluded: set<string>)
    requires recs != [] && FirstOccurrence(recs, |recs| - 1)
    ensures recs[|recs| - 1].url !in Urls(Accept(recs[..|recs| - 1], excluded))
  {
    AcceptSound(recs[..|recs| - 1], excluded);
  }

  /** The kept list only grows as more recommendations are seen: what is kept
      from a prefix is a prefix of what is kept from the whole. */
  lemma {:induction false} AcceptMonotone(short: seq<Recommendation>, long: seq<Recommendation>, excluded: set<string>)
    requires short <= long
    ensures Accept(short, excluded) <= Accept(long, excluded)
    decreases |long|
  {
    if short != long {
      var init := long[..|long| - 1];
      assert short == init[..|short|];
      AcceptMonotone(short, init, excluded);
    }
  }

  /** A recommendation whose url is excluded or already kept is skipped. */
  lemma AcceptSkip(recs: seq<Recommendation>, rec: Recommendation, excluded: set<string>)
    requires rec.url in excluded || rec.url in Urls(Accept(recs, excluded))
    ensures Accept(recs + [rec], excluded) == Accept(recs, excluded)
  {
    assert (recs + [rec])[..|recs|] == recs;
  }

  /** Any other recommendation is appended to the kept list. */
  lemma AcceptKeep(recs: seq<Recommendation>, rec: Recommendation, excluded: set<string>)
    requires !(rec.url in excluded || rec.url in Urls(Accept(recs, excluded)))
    ensures Accept(recs + [rec], excluded) == Accept(recs, excluded) + [rec]
  {
    assert (recs + [rec])[..|recs|] == recs;
  }

  // ---------------------------------------------------------------------
  // Rating alignment and affinity

  /** `keys` lists every url both users rated, each once. */
  ghost predicate IsAlignment(keys: seq<string>, ratingsA: map<string, int>, ratingsB: map<string, int>)
  {
    && (forall i :: 0 <= i < |keys| ==> keys[i] in ratingsA && keys[i] in ratingsB)
    && (forall k :: k in ratingsA && k in ratingsB ==> k in keys)
    && (forall i, j :: 0 <= i < j < |keys| ==> keys[i] != keys[j])
  }

  /** The scores of `ratings` at `keys`, position by position. */
  function Project(ratings: map<string, int>, keys: seq<string>): (scores: seq<int>)
    requires forall i :: 0 <= i < |keys| ==> keys[i] in ratings
  {
    seq(|keys|, i requires 0 <= i < |keys| => ratings[keys[i]])
  }

  /** The two score sequences handed to the correlation: one entry per url
      both users rated, in an order the set iteration chooses. */
  method AlignRatings(ratingsA: map<string, int>, ratingsB: map<string, int>)
    returns (a: seq<int>, b: seq<int>, keys: seq<string>)
    ensures IsAlignment(keys, ratingsA, ratingsB)
    ensures |a| == |b| == |keys| == |ratingsA.Keys * ratingsB.Keys|
    ensures forall i :: 0 <= i < |keys| ==> a[i] == ratingsA[keys[i]] && b[i] == ratingsB[keys[i]]
  {
    var intersectingKeys := ratingsA.Keys * ratingsB.Keys;
    a, b, keys := [], [], [];
    var rest := intersectingKeys;
    while rest != {}
      invariant rest <= intersectingKeys
      invariant forall k :: k in intersectingKeys && k !in rest ==> k in keys
      invariant forall i :: 0 <= i < |keys| ==> keys[i] in intersectingKeys && keys[i] !in rest
      invariant forall i, j :: 0 <= i < j < |keys| ==> keys[i] != keys[j]
      invariant |a| == |b| == |keys|
      invariant forall i :: 0 <= i < |keys| ==> a[i] == ratingsA[keys[i]] && b[i] == ratingsB[keys[i]]
      decreases rest
    {
      var key :| key in rest;
      a := a + [ratingsA[key]];
      b := b + [ratingsB[key]];
      keys := keys + [key];
      rest := rest - {key};
    }
    AlignmentSize(keys, ratingsA, ratingsB);
  }

  /** Any two alignments of the same ratings have the size of the shared key set. */
  lemma {:induction false} AlignmentSize(keys: seq<string>, ratingsA: map<string, int>, ratingsB: map<string, int>)
    requires IsAlignment(keys, ratingsA, ratingsB)
    ensures |keys| == |ratingsA.Keys * ratingsB.Keys|
    decreases |keys|
  {
    if keys != [] {
      var k := keys[|keys| - 1];
      var init := keys[..|keys| - 1];
      var ra := ratingsA - {k};
      assert IsAlignment(init, ra, ratingsB) by {
        forall x | x in ra && x in ratingsB ensures x in init {
          var i :| 0 <= i < |keys| && keys[i] == x;
          assert i != |keys| - 1;
        }
      }
      AlignmentSize(init, ra, ratingsB);
      assert ra.Keys * ratingsB.Keys == (ratingsA.Keys * ratingsB.Keys) - {k};
    }
  }

  /** NaN counts as no affinity; a coefficient is scaled by 100; an exception
      ends the request. */
  function Affinity(c: Correlation): (r: Result<real>)
    ensures c.NotANumber? ==> r == Ok(0.0)
    ensures c.Coefficient? ==> r == Ok(100.0 * c.r)
    ensures c.Raised? <==> r.Err?
  {
    match c
    case NotANumber => Ok(0.0)
    case Coefficient(coef) => Ok(coef * 100.0)
    case Raised => Err(CorrelationFailed)
  }

  /** Affinity keeps the order of coefficients, NaN scores like a zero
      coefficient, and a coefficient in [-1, 1] gives an affinity in [-100, 100]. */
  lemma AffinityMonotone(c1: real, c2: real)
    requires c1 <= c2
    ensures Affinity(Coefficient(c1)).value <= Affinity(Coefficient(c2)).value
    ensures Affinity(NotANumber) == Affinity(Coefficient(0.0))
    ensures -1.0 <= c1 <= 1.0 ==> -100.0 <= Affinity(Coefficient(c1)).value <= 100.0
  {
  }

  /** `score` is what correlating the two ratings along the alignment `keys` gives. */
  ghost predicate ScoredAlong(pearson: (seq<int>, seq<int>) -> Correlation,
                              ratingsA: map<string, int>, ratingsB: map<string, int>,
                              keys: seq<string>, score: Result<real>)
  {
    IsAlignment(keys, ratingsA, ratingsB)
    && score == Affinity(pearson(Project(ratingsA, keys), Project(ratingsB, keys)))
  }

  /** `affinity` is what scoring the two ratings along some alignment gives. */
  ghost predicate IsAffinity(pearson: (seq<int>, seq<int>) -> Correlation,
                             ratingsA: map<string, int>, ratingsB: map<string, int>, affinity: real)
  {
    exists keys :: ScoredAlong(pearson, ratingsA, ratingsB, keys, Ok(affinity))
  }

  function Unscored(suggestions: seq<Suggestion>): seq<Recommendation>
  {
    seq(|suggestions|, i requires 0 <= i < |suggestions| => suggestions[i].rec)
  }

  /** Every seed's recommendation lookup succeeds against `cache`. */
  ghost predicate AllParsed(fetcher: AnimeListFetcher, cache: map<string, Blob>, animeUrls: seq<string>)
    reads fetcher
    requires WellTyped(cache)
  {
    forall i :: 0 <= i < |animeUrls| ==> RecommendationsView(fetcher.web, fetcher.parse, cache, animeUrls[i]).Ok?
  }

  /** The scraped recommendations of each seed, in seed order. */
  ghost function RawRecommendations(fetcher: AnimeListFetcher, cache: map<string, Blob>, animeUrls: seq<string>)
    : (raws: seq<seq<Recommendation>>)
    reads fetcher
    requires WellTyped(cache) && AllParsed(fetcher, cache, animeUrls)
    ensures |raws| == |animeUrls|
  {
    seq(|animeUrls|, i requires 0 <= i < |animeUrls| =>
      RecommendationsView(fetcher.web, fetcher.parse, cache, animeUrls[i]).value)
  }

  /** The ranked result: no url the user already tracks, no url twice, best
      affinity first. */
  lemma RankedSuggestions(accepted: seq<Suggestion>, recs: seq<Recommendation>, excluded: set<string>)
    requires Unscored(accepted) == Accept(recs, excluded)
    ensures var ranked := SortDesc(accepted, AffinityKey);
            && SortedDesc(ranked, AffinityKey)
            && DistinctBy(ranked, SuggestionUrl)
            && (forall i :: 0 <= i < |ranked| ==> ranked[i].rec.url !in excluded && ranked[i].rec in recs)
  {
    var ranked := SortDesc(accepted, AffinityKey);
    AcceptSound(recs, excluded);
    var kept := Accept(recs, excluded);
    assert forall j :: 0 <= j < |accepted| ==> accepted[j].rec == kept[j];
    assert DistinctBy(accepted, SuggestionUrl);
    SortDescSorted(accepted, AffinityKey);
    SortDescKeepsDistinct(accepted, AffinityKey, SuggestionUrl);
    forall i | 0 <= i < |ranked| ensures ranked[i].rec.url !in excluded && ranked[i].rec in recs {
      SortDescMembers(accepted, AffinityKey, ranked[i]);
      var j :| 0 <= j < |accepted| && accepted[j] == ranked[i];
      assert kept[j] == ranked[i].rec;
    }
  }

  lemma UnscoredSnoc(suggestions: seq<Suggestion>, s: Suggestion)
    ensures Unscored(suggestions + [s]) == Unscored(suggestions) + [s.rec]
  {
  }

  /** Every suggestion's affinity is one that scoring its recommender's
      ratings, as a lookup against `cache` yields them, can give. */
  ghost predicate AllScored(web: Web, cache: map<string, Blob>, pearson: (seq<int>, seq<int>) -> Correlation,
                            ratingsA: map<string, int>, suggestions: seq<Suggestion>)
    requires Paginates(web) && WellTyped(cache)
  {
    forall i :: 0 <= i < |suggestions| ==>
      IsAffinity(pearson, ratingsA, RatingsView(web, cache, suggestions[i].rec.user), suggestions[i].affinity)
  }

  lemma AllScoredSnoc(web: Web, cache: map<string, Blob>, pearson: (seq<int>, seq<int>) -> Correlation,
                      ratingsA: map<string, int>, suggestions: seq<Suggestion>, s: Suggestion)
    requires Paginates(web) && WellTyped(cache)
    requires AllScored(web, cache, pearson, ratingsA, suggestions)
    requires IsAffinity(pearson, ratingsA, RatingsView(web, cache, s.rec.user), s.affinity)
    ensures AllScored(web, cache, pearson, ratingsA, suggestions + [s])
  {
    var r := suggestions + [s];
    forall i | 0 <= i < |r|
      ensures IsAffinity(pearson, ratingsA, RatingsView(web, cache, r[i].rec.user), r[i].affinity)
    {
      if i < |suggestions| { assert r[i] == suggestions[i]; }
    }
  }

  /** Correlating `ratingsA` with the ratings of `user`, as a lookup against
      `cache` yields them, raises along no alignment of their common urls. */
  ghost predicate ScoresWithoutRaising(web: Web, cache: map<string, Blob>, pearson: (seq<int>, seq<int>) -> Correlation,
                                       ratingsA: map<string, int>, user: string)
    requires Paginates(web) && WellTyped(cache)
  {
    forall keys :: IsAlignment(keys, ratingsA, RatingsView(web, cache, user)) ==>
      pearson(Project(ratingsA, keys), Project(RatingsView(web, cache, user), keys)) != Raised
  }

  /** Scoring the recommender of any of `recs` never raises. */
  ghost predicate NeverRaises(web: Web, cache: map<string, Blob>, pearson: (seq<int>, seq<int>) -> Correlation,
                              ratingsA: map<string, int>, recs: seq<Recommendation>)
    requires Paginates(web) && WellTyped(cache)
  {
    forall rec :: rec in recs ==> ScoresWithoutRaising(web, cache, pearson, ratingsA, rec.user)
  }

  /** When the recommendation at position `j` of a seed's `recs` is kept and
      scores with a raise, not every recommendation kept from `seen + recs`
      scores without one. */
  lemma RaiseEndsWalk(web: Web, cache: map<string, Blob>, pearson: (seq<int>, seq<int>) -> Correlation,
                      ratingsA: map<string, int>, seen: seq<Recommendation>, recs: seq<Recommendation>,
                      j: nat, excluded: set<string>)
    requires Paginates(web) && WellTyped(cache) && j < |recs|
    requires Accept(seen + recs[..j + 1], excluded) == Accept(seen + recs[..j], excluded) + [recs[j]]
    requires !ScoresWithoutRaising(web, cache, pearson, ratingsA, recs[j].user)
    ensures !NeverRaises(web, cache, pearson, ratingsA, Accept(seen + recs, excluded))
  {
    assert recs[..j + 1] <= recs;
    AcceptMonotone(seen + recs[..j + 1], seen + recs, excluded);
    var short := Accept(seen + recs[..j + 1], excluded);
    assert Accept(seen + recs, excluded)[|short| - 1] == recs[j];
  }

  /** Every seed's page parses against `cache`, and scoring the recommender of
      any recommendation kept from them never raises. */
  ghost predicate SeedsSucceed(fetcher: AnimeListFetcher, cache: map<string, Blob>,
                               pearson: (seq<int>, seq<int>) -> Correlation,
                               ratingsA: map<string, int>, excluded: set<string>, animeUrls: seq<string>)
    reads fetcher
    requires Paginates(fetcher.web) && WellTyped(cache)
  {
    && AllParsed(fetcher, cache, animeUrls)
    && NeverRaises(fetcher.web, cache, pearson, ratingsA,
                   Accept(Flatten(RawRecommendations(fetcher, cache, animeUrls)), excluded))
  }

  /** A correlation that raises for a recommendation kept from the first
      seeds, the last of them yielding `raw`, raises for one kept from all seeds. */
  lemma RaiseInPrefix(fetcher: AnimeListFetcher, cache: map<string, Blob>, animeUrls: seq<string>,
                      raws: seq<seq<Recommendation>>, raw: seq<Recommendation>,
                      pearson: (seq<int>, seq<int>) -> Correlation,
                      ratingsA: map<string, int>, excluded: set<string>)
    requires Paginates(fetcher.web) && WellTyped(cache) && |raws| < |animeUrls|
    requires forall i :: 0 <= i < |raws| ==>
               RecommendationsView(fetcher.web, fetcher.parse, cache, animeUrls[i]) == Ok(raws[i])
    requires RecommendationsView(fetcher.web, fetcher.parse, cache, animeUrls[|raws|]) == Ok(raw)
    ensures SeedsSucceed(fetcher, cache, pearson, ratingsA, excluded, animeUrls)
            ==> NeverRaises(fetcher.web, cache, pearson, ratingsA, Accept(Flatten(raws) + raw, excluded))
  {
    if AllParsed(fetcher, cache, animeUrls) {
      var all := RawRecommendations(fetcher, cache, animeUrls);
      var seen := raws + [raw];
      assert seen == all[..|seen|];
      FlattenMonotone(seen, all);
      FlattenSnoc(raws, raw);
      AcceptMonotone(Flatten(seen), Flatten(all), excluded);
      var short, long := Accept(Flatten(seen), excluded), Accept(Flatten(all), excluded);
      forall rec | rec in short ensures rec in long {
        var k :| 0 <= k < |short| && short[k] == rec;
        assert long[k] == rec;
      }
    }
  }

  /** The walk over the seeds ends at seed `k` with a raise: the pages of
      seeds `0..k` parse, and scoring the recommender of some recommendation
      kept from them raises. */
  ghost predicate CorrelationFailsAt(fetcher: AnimeListFetcher, cache: map<string, Blob>,
                                     pearson: (seq<int>, seq<int>) -> Correlation,
                                     ratingsA: map<string, int>, excluded: set<string>,
                                     animeUrls: seq<string>, k: nat)
    reads fetcher
    requires Paginates(fetcher.web) && WellTyped(cache) && k < |animeUrls|
  {
    && AllParsed(fetcher, cache, animeUrls[..k + 1])
    && !NeverRaises(fetcher.web, cache, pearson, ratingsA,
                    Accept(Flatten(RawRecommendations(fetcher, cache, animeUrls[..k + 1])), excluded))
  }

  /** The walk over the seeds ends at seed `k` with a page that does not
      parse, every earlier seed's page having parsed. */
  ghost predicate ParseFailsAt(fetcher: AnimeListFetcher, cache: map<string, Blob>, animeUrls: seq<string>, k: nat)
    reads fetcher
    requires WellTyped(cache) && k < |animeUrls|
  {
    && AllParsed(fetcher, cache, animeUrls[..k])
    && RecommendationsView(fetcher.web, fetcher.parse, cache, animeUrls[k]).Err?
  }

  /** A page that does not parse after the first seeds' pages parsed ends the
      walk at that seed. */
  lemma ParseFailureAtSeed(fetcher: AnimeListFetcher, cache: map<string, Blob>, animeUrls: seq<string>,
                           raws: seq<seq<Recommendation>>)
    requires WellTyped(cache) && |raws| < |animeUrls|
    requires forall i :: 0 <= i < |raws| ==>
               RecommendationsView(fetcher.web, fetcher.parse, cache, animeUrls[i]) == Ok(raws[i])
    requires RecommendationsView(fetcher.web, fetcher.parse, cache, animeUrls[|raws|]).Err?
    ensures ParseFailsAt(fetcher, cache, animeUrls, |raws|) && !AllParsed(fetcher, cache, animeUrls)
  {
    assert AllParsed(fetcher, cache, animeUrls[..|raws|]);
  }

  /** A raise while walking the recommendations kept from the first seeds,
      the last of them yielding `raw`, is a raise within those seeds. */
  lemma RaiseAtSeed(fetcher: AnimeListFetcher, cache: map<string, Blob>, animeUrls: seq<string>,
                    raws: seq<seq<Recommendation>>, raw: seq<Recommendation>,
                    pearson: (seq<int>, seq<int>) -> Correlation,
                    ratingsA: map<string, int>, excluded: set<string>)
    requires Paginates(fetcher.web) && WellTyped(cache) && |raws| < |animeUrls|
    requires forall i :: 0 <= i < |raws| ==>
               RecommendationsView(fetcher.web, fetcher.parse, cache, animeUrls[i]) == Ok(raws[i])
    requires RecommendationsView(fetcher.web, fetcher.parse, cache, animeUrls[|raws|]) == Ok(raw)
    requires !NeverRaises(fetcher.web, cache, pearson, ratingsA, Accept(Flatten(raws) + raw, excluded))
    ensures CorrelationFailsAt(fetcher, cache, pearson, ratingsA, excluded, animeUrls, |raws|)
  {
    var prefix := animeUrls[..|raws| + 1];
    assert AllParsed(fetcher, cache, prefix);
    assert RawRecommendations(fetcher, cache, prefix) == raws + [raw];
    FlattenSnoc(raws, raw);
  }

  /** The seeds of `user`'s list as a lookup against `cache` yields it. */
  ghost function UserSeeds(web: Web, cache: map<string, Blob>, user: string): seq<string>
    requires Paginates(web) && WellTyped(cache)
  {
    SeedUrlsOf(SortDesc(CompletedOf(Flatten(ListView(web, cache, user))), ScoreKey))
  }

  /** `ranked` is the stable best-first sort of `candidates`, each scored with
      an affinity its recommender's ratings can give. */
  ghost predicate RankedFrom(web: Web, cache: map<string, Blob>, pearson: (seq<int>, seq<int>) -> Correlation,
                             ratingsA: map<string, int>, candidates: seq<Recommendation>, ranked: seq<Suggestion>)
    requires Paginates(web) && WellTyped(cache)
  {
    exists accepted :: Unscored(accepted) == candidates
                       && AllScored(web, cache, pearson, ratingsA, accepted)
                       && ranked == SortDesc(accepted, AffinityKey)
  }

  class SuggestAnime {
    const fetcher: AnimeListFetcher
    /** The correlation routine. */
    const pearson: (seq<int>, seq<int>) -> Correlation
    /** The regex engine's `\w` class. */
    const isWordChar: char -> bool

    ghost predicate Valid()
      reads fetcher
    {
      fetcher.Valid()
    }

    constructor (fetcher: AnimeListFetcher, pearson: (seq<int>, seq<int>) -> Correlation, isWordChar: char -> bool)
      ensures this.fetcher == fetcher && this.pearson == pearson && this.isWordChar == isWordChar
    {
      this.fetcher := fetcher;
      this.pearson := pearson;
      this.isWordChar := isWordChar;
    }

    /** The affinity of `recommender` to the owner of `recommendeeList`,
        computed over the urls both rated. */
    method ComputeRecommendationScore(recommendeeList: AnimeList, recommender: string)
      returns (score: Result<real>, ghost keys: seq<string>)
      requires Valid()
      modifies fetcher`cache, fetcher`requests
      ensures Valid() && Extends(fetcher.web, old(fetcher.cache), fetcher.cache)
      ensures ScoredAlong(pearson, recommendeeList.ratedAnimes,
                          RatingsView(fetcher.web, old(fetcher.cache), recommender), keys, score)
    {
      var ratingsA := recommendeeList.ratedAnimes;
      var recommenderList := fetcher.AnimeListFor(recommender);
      var ratingsB := recommenderList.ratedAnimes;
      var a, b;
      a, b, keys := AlignRatings(ratingsA, ratingsB);
      assert a == Project(ratingsA, keys) && b == Project(ratingsB, keys);
      score := Affinity(pearson(a, b));
    }

    /** Walks the seeds in order and each seed's recommendations in page
        order, keeps those whose url is neither excluded nor already kept,
        scores each kept one, and ranks them by affinity, best first. The
        outcome is that of lookups against `base`, any earlier state of the
        cache that the current one extends. */
    method ProcessRecommendations(animeList: AnimeList, animeUrls: seq<string>, ghost base: map<string, Blob>)
      returns (r: Result<seq<Suggestion>>, ghost accepted: seq<Suggestion>, ghost failedAt: nat)
      requires Valid() && WellTyped(base) && Extends(fetcher.web, base, fetcher.cache)
      modifies fetcher`cache, fetcher`requests
      ensures Valid() && Extends(fetcher.web, base, fetcher.cache)
      ensures r.Ok? ==>
                && AllParsed(fetcher, base, animeUrls)
                && Unscored(accepted)
                   == Accept(Flatten(RawRecommendations(fetcher, base, animeUrls)), animeList.excludedAnimeUrls)
                && AllScored(fetcher.web, base, pearson, animeList.ratedAnimes, accepted)
                && r.value == SortDesc(accepted, AffinityKey)
      ensures r.Err? ==> r.error == MarkerNotFound || r.error == CorrelationFailed
      ensures r.Err? && r.error == MarkerNotFound ==> !AllParsed(fetcher, base, animeUrls)
      ensures r == Err(MarkerNotFound) ==>
                failedAt < |animeUrls| && ParseFailsAt(fetcher, base, animeUrls, failedAt)
      ensures r == Err(CorrelationFailed) ==>
                && failedAt < |animeUrls|
                && CorrelationFailsAt(fetcher, base, pearson, animeList.ratedAnimes,
                                      animeList.excludedAnimeUrls, animeUrls, failedAt)
      ensures SeedsSucceed(fetcher, base, pearson, animeList.ratedAnimes, animeList.excludedAnimeUrls, animeUrls)
              ==> r.Ok?
    {
      ghost var web, parse := fetcher.web, fetcher.parse;
      var recommendations: seq<Suggestion> := [];
      accepted := [];
      var recommendedSet: set<string> := {};
      ghost var raws: seq<seq<Recommendation>> := [];
      failedAt := 0;
      for s := 0 to |animeUrls|
        invariant Valid() && Extends(web, base, fetcher.cache)
        invariant |raws| == s
        invariant forall i :: 0 <= i < s ==>
                    RecommendationsView(web, parse, base, animeUrls[i]) == Ok(raws[i])
        invariant Unscored(recommendations) == Accept(Flatten(raws), animeList.excludedAnimeUrls)
        invariant recommendedSet == Urls(Unscored(recommendations))
        invariant AllScored(web, base, pearson, animeList.ratedAnimes, recommendations)
      {
        var failure;
        ghost var raw;
        failure, raw, recommendations, recommendedSet :=
          ProcessSeed(animeList, animeUrls, s, recommendations, recommendedSet, base, raws);
        if failure.Some? {
          failedAt := s;
          r := Err(failure.value);
          return;
        }
        FlattenSnoc(raws, raw);
        raws := raws + [raw];
      }
      assert raws == RawRecommendations(fetcher, base, animeUrls);
      accepted := recommendations;
      r := Ok(SortDesc(recommendations, AffinityKey));
    }

    /** The seed at position `s`, after the seeds before it yielded `raws`:
        its recommendations are looked up and then walked as
        `AddRecommendations` does. A failure here is where the walk over all
        seeds ends. */
    method ProcessSeed(animeList: AnimeList, animeUrls: seq<string>, s: nat,
                       recommendations: seq<Suggestion>, recommendedSet: set<string>,
                       ghost base: map<string, Blob>, ghost raws: seq<seq<Recommendation>>)
      returns (failure: Option<Failure>, ghost raw: seq<Recommendation>,
               kept: seq<Suggestion>, keptUrls: set<string>)
      requires Valid() && WellTyped(base) && Extends(fetcher.web, base, fetcher.cache)
      requires s == |raws| < |animeUrls|
      requires forall i :: 0 <= i < s ==>
                 RecommendationsView(fetcher.web, fetcher.parse, base, animeUrls[i]) == Ok(raws[i])
      requires Unscored(recommendations) == Accept(Flatten(raws), animeList.excludedAnimeUrls)
      requires recommendedSet == Urls(Unscored(recommendations))
      requires AllScored(fetcher.web, base, pearson, animeList.ratedAnimes, recommendations)
      modifies fetcher`cache, fetcher`requests
      ensures Valid() && Extends(fetcher.web, base, fetcher.cache)
      ensures failure.None? ==>
                && RecommendationsView(fetcher.web, fetcher.parse, base, animeUrls[s]) == Ok(raw)
                && Unscored(kept) == Accept(Flatten(raws) + raw, animeList.excludedAnimeUrls)
                && keptUrls == Urls(Unscored(kept))
                && AllScored(fetcher.web, base, pearson, animeList.ratedAnimes, kept)
      ensures failure.Some? ==> failure.value == MarkerNotFound || failure.value == CorrelationFailed
      ensures failure == Some(MarkerNotFound) ==>
                ParseFailsAt(fetcher, base, animeUrls, s) && !AllParsed(fetcher, base, animeUrls)
      ensures failure == Some(CorrelationFailed) ==>
                && CorrelationFailsAt(fetcher, base, pearson, animeList.ratedAnimes,
                                      animeList.excludedAnimeUrls, animeUrls, s)
                && !SeedsSucceed(fetcher, base, pearson, animeList.ratedAnimes,
                                 animeList.excludedAnimeUrls, animeUrls)
    {
      ghost var cacheBefore := fetcher.cache;
      var rawRecommendations := fetcher.Recommendations(animeUrls[s]);
      RecommendationsViewStable(fetcher.web, fetcher.parse, base, cacheBefore, animeUrls[s]);
      ExtendsTransitive(fetcher.web, base, cacheBefore, fetcher.cache);
      if rawRecommendations.Err? {
        ParseFailureAtSeed(fetcher, base, animeUrls, raws);
        return Some(rawRecommendations.error), [], recommendations, recommendedSet;
      }
      raw := rawRecommendations.value;
      failure, kept, keptUrls :=
        AddRecommendations(animeList, rawRecommendations.value, recommendations, recommendedSet,
                           base, Flatten(raws));
      if failure.Some? {
        RaiseInPrefix(fetcher, base, animeUrls, raws, raw, pearson,
                      animeList.ratedAnimes, animeList.excludedAnimeUrls);
        RaiseAtSeed(fetcher, base, animeUrls, raws, raw, pearson,
                    animeList.ratedAnimes, animeList.excludedAnimeUrls);
      }
    }

    /** The walk over one seed's recommendations: each one whose url is
        neither excluded nor already kept is scored and kept; a correlation
        that raises ends the walk. */
    method AddRecommendations(animeList: AnimeList, recs: seq<Recommendation>,
                              recommendations: seq<Suggestion>, recommendedSet: set<string>,
                              ghost cache0: map<string, Blob>, ghost seen: seq<Recommendation>)
      returns (failure: Option<Failure>, kept: seq<Suggestion>, keptUrls: set<string>)
      requires Valid() && WellTyped(cache0) && Extends(fetcher.web, cache0, fetcher.cache)
      requires Unscored(recommendations) == Accept(seen, animeList.excludedAnimeUrls)
      requires recommendedSet == Urls(Unscored(recommendations))
      requires AllScored(fetcher.web, cache0, pearson, animeList.ratedAnimes, recommendations)
      modifies fetcher`cache, fetcher`requests
      ensures Valid() && Extends(fetcher.web, cache0, fetcher.cache)
      ensures failure.None? ==>
                && Unscored(kept) == Accept(seen + recs, animeList.excludedAnimeUrls)
                && keptUrls == Urls(Unscored(kept))
                && AllScored(fetcher.web, cache0, pearson, animeList.ratedAnimes, kept)
      ensures failure.Some? ==>
                && failure.value == CorrelationFailed
                && !NeverRaises(fetcher.web, cache0, pearson, animeList.ratedAnimes,
                                Accept(seen + recs, animeList.excludedAnimeUrls))
    {
      kept, keptUrls := recommendations, recommendedSet;
      assert seen + recs[..0] == seen;
      for j := 0 to |recs|
        invariant Valid() && Extends(fetcher.web, cache0, fetcher.cache)
        invariant Unscored(kept) == Accept(seen + recs[..j], animeList.excludedAnimeUrls)
        invariant keptUrls == Urls(Unscored(kept))
        invariant AllScored(fetcher.web, cache0, pearson, animeList.ratedAnimes, kept)
      {
        assert seen + recs[..j + 1] == (seen + recs[..j]) + [recs[j]];
        failure, kept, keptUrls := ConsiderRecommendation(animeList, recs[j], kept, keptUrls, cache0, seen + recs[..j]);
        if failure.Some? {
          RaiseEndsWalk(fetcher.web, cache0, pearson, animeList.ratedAnimes, seen, recs, j, animeList.excludedAnimeUrls);
          return;
        }
      }
      assert recs[..|recs|] == recs;
      failure := None;
    }

    /** One recommendation: kept and scored when its url is neither excluded
        nor already kept, skipped otherwise; a correlation that raises is a
        failure. */
    method ConsiderRecommendation(animeList: AnimeList, rec: Recommendation,
                                  recommendations: seq<Suggestion>, recommendedSet: set<string>,
                                  ghost cache0: map<string, Blob>, ghost seen: seq<Recommendation>)
      returns (failure: Option<Failure>, kept: seq<Suggestion>, keptUrls: set<string>)
      requires Valid() && WellTyped(cache0) && Extends(fetcher.web, cache0, fetcher.cache)
      requires Unscored(recommendations) == Accept(seen, animeList.excludedAnimeUrls)
      requires recommendedSet == Urls(Unscored(recommendations))
      requires AllScored(fetcher.web, cache0, pearson, animeList.ratedAnimes, recommendations)
      modifies fetcher`cache, fetcher`requests
      ensures Valid() && Extends(fetcher.web, cache0, fetcher.cache)
      ensures failure.None? ==>
                && Unscored(kept) == Accept(seen + [rec], animeList.excludedAnimeUrls)
                && keptUrls == Urls(Unscored(kept))
                && AllScored(fetcher.web, cache0, pearson, animeList.ratedAnimes, kept)
      ensures failure.Some? ==>
                && failure.value == CorrelationFailed
                && Accept(seen + [rec], animeList.excludedAnimeUrls) == Accept(seen, animeList.excludedAnimeUrls) + [rec]
                && !ScoresWithoutRaising(fetcher.web, cache0, pearson, animeList.ratedAnimes, rec.user)
    {
      ghost var web := fetcher.web;
      kept, keptUrls := recommendations, recommendedSet;
      var recUrl := rec.url;
      var isExcludedAnime := recUrl in animeList.excludedAnimeUrls;
      var alreadyRecommended := recUrl in keptUrls;
      if isExcludedAnime || alreadyRecommended {
        AcceptSkip(seen, rec, animeList.excludedAnimeUrls);
        return None, kept, keptUrls;
      }
      AcceptKeep(seen, rec, animeList.excludedAnimeUrls);
      ghost var cacheNow := fetcher.cache;
      var score, keys := ComputeRecommendationScore(animeList, rec.user);
      ListViewStable(web, cache0, cacheNow, rec.user);
      ExtendsTransitive(web, cache0, cacheNow, fetcher.cache);
      assert RatingsView(web, cacheNow, rec.user) == RatingsView(web, cache0, rec.user);
      if score.Err? {
        return Some(score.error), kept, keptUrls;
      }
      var suggestion := Suggestion(rec, score.value);
      AllScoredSnoc(web, cache0, pearson, animeList.ratedAnimes, kept, suggestion);
      UnscoredSnoc(kept, suggestion);
      UrlsSnoc(Unscored(kept), rec);
      kept := kept + [suggestion];
      keptUrls := keptUrls + {recUrl};
      failure := None;
    }

    /** The whole request: check the username, load the user's list, take its
        seeds and rank the recommendations found through them. Every lookup
        yields what it would have yielded against the cache at the start. */
    method Suggest(user: string) returns (r: Result<seq<Suggestion>>)
      requires Valid()
      modifies fetcher`cache, fetcher`requests
      ensures Valid() && Extends(fetcher.web, old(fetcher.cache), fetcher.cache)
      ensures ValidateUsername(isWordChar, user).Some? ==>
                && r == Err(ValidateUsername(isWordChar, user).value)
                && fetcher.cache == old(fetcher.cache) && fetcher.requests == old(fetcher.requests)
      ensures ValidateUsername(isWordChar, user).None? ==>
                var cache := old(fetcher.cache);
                var seeds := UserSeeds(fetcher.web, cache, user);
                var ratings := RatingsView(fetcher.web, cache, user);
                var excluded := ExcludedOf(Flatten(ListView(fetcher.web, cache, user)));
                && (r.Ok? ==>
                      && AllParsed(fetcher, cache, seeds)
                      && RankedFrom(fetcher.web, cache, pearson, ratings,
                                    Accept(Flatten(RawRecommendations(fetcher, cache, seeds)), excluded), r.value))
                && (SeedsSucceed(fetcher, cache, pearson, ratings, excluded, seeds) ==> r.Ok?)
                && (r.Err? ==> r.error == MarkerNotFound || r.error == CorrelationFailed)
                && (r == Err(MarkerNotFound) ==>
                      exists k :: 0 <= k < |seeds| && ParseFailsAt(fetcher, cache, seeds, k))
                && (r == Err(CorrelationFailed) ==>
                      exists k :: 0 <= k < |seeds|
                                  && CorrelationFailsAt(fetcher, cache, pearson, ratings, excluded, seeds, k))
      ensures r.Ok? ==>
                && SortedDesc(r.value, AffinityKey)
                && DistinctBy(r.value, SuggestionUrl)
                && forall i :: 0 <= i < |r.value| ==>
                     r.value[i].rec.url !in ExcludedOf(Flatten(ListView(fetcher.web, old(fetcher.cache), user)))
    {
      var invalid := ValidateUsername(isWordChar, user);
      if invalid.Some? {
        r := Err(invalid.value);
        return;
      }
      ghost var cache0 := fetcher.cache;
      var animeList := fetcher.AnimeListFor(user);
      var seedAnimeUrls := animeList.SeedAnimeUrls();
      assert seedAnimeUrls == UserSeeds(fetcher.web, cache0, user);
      ghost var accepted, failedAt;
      r, accepted, failedAt := ProcessRecommendations(animeList, seedAnimeUrls, cache0);
      if r.Ok? {
        RankedSuggestions(accepted, Flatten(RawRecommendations(fetcher, cache0, seedAnimeUrls)),
                          animeList.excludedAnimeUrls);
      }
    }
  }
}
